=== FILE: README.md ===
# VideoEditify request-handling model

A Dafny model of the server-side decision logic of VideoEditify, a marketplace
where clients order video edits and freelance editors claim and deliver them.
The model covers the API routes that create accounts, promote customers to
freelancers, create orders and record file uploads. It also covers the queries
behind the freelancer dashboard and the public freelancer directory, the request
middleware, and the credential and session callbacks of the authentication
options.

Every handler is a pure function from the request, the session and the store to
a `(Response, Store)` pair. The store holds four tables:

- users, keyed by email;
- orders, keyed by id;
- file records, keyed by id;
- reviews.

Side effects the code reaches for are parameters:

- the clock (`Date.now()`);
- the id the database assigns to a new row;
- bcrypt's `hash` and `compare`;
- the storage adapter's signed-URL issuer;
- the schema defaults that the code does not show.

JavaScript truthiness is modelled directly: a string field is falsy when it is
absent, null or empty, and a number field when it is absent, null or zero.

Modules, one per source file or concern:

- `JsValues`: `Option`, `Result`, and the truthiness tests.
- `Strings`: prefixes, ASCII lower-casing, first-occurrence replace, and decimal timestamps.
- `Domain`: roles, the seven order statuses, the user, order, file and review records, the store, and its key and link invariant `Valid`.
- `Http`: responses.
- `Auth`: session, token, `authorize`, `jwt` and `session`.
- `Upload`, `Orders`, `Signup`, `FreelancerRegister`: one module per API route.
- `FreelancerDashboard`, `FreelancerDirectory`: the two server pages.
- `Middleware`: the request middleware.
- `Workflows`: properties that span several requests.

Behaviour of the code worth knowing, each proved:

- Order creation does not check the price: any number, zero or negative included, is stored as given (`Orders.PriceSignNotChecked`).
- Freelancer registration only refuses accounts that are already FREELANCER. An ADMIN who registers loses the ADMIN role and becomes a FREELANCER (`FreelancerRegister.AdminIsReplacedByFreelancer`).

Inconsistencies between files, recorded but not reconciled:

- The session type declaration spells the customer role `'USER'` (src/types/next-auth.d.ts:5). The routes write `'CUSTOMER'` (src/app/api/auth/signup/route.ts:46). `Domain.Role` follows the routes.
- The freelancer registration form sends `skills` as a single string. The directory's `Freelancer` type declares `string[]`. The model carries skills as an optional string.
- The order route takes its session from the options in src/app/api/auth/[...nextauth]/route.ts, not from src/lib/auth.ts. The order route only consumes the session's email, as every route does.
- The sign-in endpoint itself, `NextAuth(authOptions)` at src/app/api/auth/[...nextauth]/route.ts:85-86, runs that other options object, not the one in src/lib/auth.ts. See "## Left out".

## Model

| member | source | states |
|---|---|---|
| Auth.SessionEmail | src/app/api/upload/route.ts:11-16 | a caller counts as signed in exactly when the session has a user with a non-empty email |
| Auth.Authorize | src/lib/auth.ts:27-52 | sign-in succeeds iff email and password are present, the account exists with a stored hash, and compare accepts; every failure is the same "Invalid credentials"; success returns the stored user unchanged |
| Auth.Jwt | src/lib/auth.ts:56-65 | with a user the token gains that user's id and role; without one it is returned unchanged; the standard claims are always kept |
| Auth.SessionCallback | src/lib/auth.ts:66-75 | session.user receives the token's id and role; name, email, image and expiry are preserved |
| Auth.SignInSessionCarriesIdentity | src/lib/auth.ts:27-75 | after a successful sign-in and both callbacks, the session carries the account's id and role |
| Upload.HandleUpload | src/app/api/upload/route.ts:7-95 | the error cascade 401, 400, 404 order, 404 user, 403, each as an iff on its condition, so the field check precedes every lookup; success iff every check passes, the last being that the caller owns or is assigned to the order; no error writes; success adds exactly one record under the new id, leaves the rest untouched, and returns that id and the URL signed for the key |
| Upload.HasPermission | src/app/api/upload/route.ts:57 | the caller may upload iff they are the order's owner or its assigned freelancer; before a freelancer is assigned only the owner may |
| Upload.StorageKey | src/app/api/upload/route.ts:66 | the key starts with "orderId/type/" and ends with "-filename" |
| Upload.StorageKeyDistinguishesTime | src/app/api/upload/route.ts:66 | the same file sent to the same order and role at two different milliseconds gets two different keys |
| Upload.NewFileRecord | src/app/api/upload/route.ts:72-82 | size 0, mimeType = content type, orderId copied; linked as source iff type is "source", as delivery iff type is "delivery", otherwise neither |
| Upload.UploadKeepsStoreValid | src/app/api/upload/route.ts:72-82 | an upload preserves the store's key and link invariant |
| Orders.HandleCreateOrder | src/app/api/orders/route.ts:6-66 | 401, then 400 for missing title, description, deadline or source files, then 404 for an unknown caller, each an iff, so an invalid body from an unknown user gets 400; a missing price, an unparseable deadline or an unknown file id fails with 500; success iff none of these applies; no error writes; success creates one order owned by the caller with fields copied, no freelancer, and its source files exactly the submitted ids |
| Orders.LinkSources | src/app/api/orders/route.ts:49-51 | each submitted file is re-linked to the new order as source footage; no other file changes |
| Orders.SourcesAreListed | src/app/api/orders/route.ts:49-56 | in a valid store the new order's source files are exactly the submitted list |
| Orders.PriceSignNotChecked | src/app/api/orders/route.ts:20-47 | the outcome does not depend on the price's value; any price, negative included, is stored as given |
| Signup.NewAccount | src/app/api/auth/signup/route.ts:39-54 | stored password = hash(password); role is FREELANCER iff isFreelancer, else CUSTOMER; a freelancer gets bio, skills, hourly rate and isAvailable = true, anyone else the schema defaults |
| Signup.HandleSignup | src/app/api/auth/signup/route.ts:5-64 | 422 for a bad email or short password, then 422 for missing freelancer fields only when isFreelancer, then 422 for an existing email, each an iff; success iff none of these applies; errors leave the store unchanged; success answers 201 and adds exactly the new account |
| FreelancerRegister.HandleRegister | src/app/api/freelancer/register/route.ts:6-60 | 401, then 400 for missing bio, skills or rate, before the role check, then 400 when already FREELANCER; an unknown account makes the update fail with 500; success iff the fields are present and the account exists and is not yet FREELANCER; success sets role FREELANCER, the profile and availability, answers 200 with the updated user and changes no other user |
| FreelancerRegister.RegisterTwiceFails | src/app/api/freelancer/register/route.ts:33-50 | after a successful promotion any further call fails with 400 and writes nothing |
| FreelancerRegister.AdminIsReplacedByFreelancer | src/app/api/freelancer/register/route.ts:33-44 | the guard lets an ADMIN through and the ADMIN role is overwritten |
| FreelancerDashboard.InsertDesc | src/app/freelancer/dashboard/page.tsx:32-34 | insertion into a newest-first list keeps it newest first and adds exactly the one row |
| FreelancerDashboard.SortNewestFirst | src/app/freelancer/dashboard/page.tsx:32-46 | the query result holds every selected row exactly once, newest first by the chosen timestamp |
| FreelancerDashboard.GetFreelancerOrders | src/app/freelancer/dashboard/page.tsx:15-59 | null iff the account is unknown or not FREELANCER; available = each PENDING unassigned order once, by createdAt descending; claimed = each order assigned to the caller and not COMPLETED once, CANCELLED included, by updatedAt descending; the two lists are disjoint |
| FreelancerDashboard.AvailableAndClaimedDisjoint | src/app/freelancer/dashboard/page.tsx:27-43 | no order is both available and someone's claimed work |
| FreelancerDashboard.DashboardPage | src/app/freelancer/dashboard/page.tsx:61-74 | no session redirects to /auth/signin; a non-freelancer or unknown account redirects to /freelancer/register; a freelancer is always shown the page, with every available order once newest-created first and every one of their unfinished orders once most-recently-updated first |
| FreelancerDashboard.BadgeOf | src/app/freelancer/dashboard/page.tsx:110-117 | blue iff IN_PROGRESS, yellow iff IN_REVIEW, grey for every other status |
| FreelancerDashboard.Capitalize | src/app/freelancer/dashboard/page.tsx:119 | first character kept; every later one lower-cased, except that the name's one '_' becomes a space; no '_' remains |
| FreelancerDashboard.StatusLabel | src/app/freelancer/dashboard/page.tsx:119 | the badge text of each status, with the contract of Capitalize |
| FreelancerDashboard.InProgressLabel | src/app/freelancer/dashboard/page.tsx:119 | IN_PROGRESS is shown as "In progress" |
| FreelancerDirectory.RatingsFor | src/app/freelancers/page.tsx:20-24 | each rating appears exactly as many times as there are reviews of the freelancer with that rating, so the list has one entry per review |
| FreelancerDirectory.GetFreelancers | src/app/freelancers/page.tsx:6-27 | every available FREELANCER has a listing, and every listing comes from one |
| FreelancerDirectory.ListedIff | src/app/freelancers/page.tsx:8-11 | in a valid store an account is listed iff its role is FREELANCER and it is available |
| FreelancerDirectory.SumBounds | src/app/freelancers/page.tsx:47-49 | the sum of n ratings lies between n times the least and n times the greatest |
| FreelancerDirectory.Average | src/app/freelancers/page.tsx:47-50 | null iff there are no reviews; otherwise between the least and the greatest rating, and zero iff the ratings sum to zero |
| FreelancerDirectory.Round | src/app/freelancers/page.tsx:79 | `Math.round`: the integer within half of the value, halves rounded up |
| FreelancerDirectory.Stars | src/app/freelancers/page.tsx:75-88 | five stars, the filled ones first, as many as round(average) clamped to 0..5 |
| FreelancerDirectory.CardOf | src/app/freelancers/page.tsx:45-102 | "Anonymous Freelancer", "/default-avatar.png" and "No bio available" stand in for missing values; the rating line is drawn iff the average exists and is non-zero, with the review count equal to the number of reviews |
| FreelancerDirectory.OneToFiveRatings | src/app/freelancers/page.tsx:73-90 | with ratings in 1..5 the rating line always shows, and 1 to 5 stars are filled, round(average) of them |
| Middleware.Authorized | src/middleware.ts:14-21 | every "/auth/" path is authorized; any other path iff a token is present |
| Middleware.Redirect | src/middleware.ts:5-11 | redirect to /dashboard iff the path starts with "/auth/" and a token is present; otherwise pass through |
| Middleware.Matched | src/middleware.ts:28 | the matcher: "/dashboard" or "/auth", or any path below either; every matched path starts with one of the two |
| Middleware.SiblingPathNotMatched | src/middleware.ts:28 | the matcher works on whole segments: a path such as "/dashboards" is not matched and passes untouched |
| Middleware.Handle | src/middleware.ts:4-29 | unmatched paths skip the middleware; matched ones are refused when not authorized, else redirected or passed |
| Middleware.AuthPageOutcomes | src/middleware.ts:7-18 | an unauthenticated "/auth/" request passes unredirected; an authenticated one goes to /dashboard |
| Middleware.DashboardNeedsToken | src/middleware.ts:14-28 | every /dashboard path needs a token and passes with one |
| Middleware.BareAuthPathNeedsToken | src/middleware.ts:16-28 | "/auth" itself is matched but is not an "/auth/" page, so without a token it is refused |
| Domain.StatusNameRoundTrip | src/types/order.ts:1 | each of the seven statuses reads back from its name, so the names are distinct |
| Strings.DecimalRoundTrip | src/app/api/upload/route.ts:66 | the rendered timestamp reads back as the timestamp |
| Strings.ToLower | src/app/freelancer/dashboard/page.tsx:119 | same length, each character lower-cased |
| Strings.IndexOf | src/app/freelancer/dashboard/page.tsx:119 | the first position of the character, or -1 iff it does not occur |
| Strings.ReplaceFirst | src/app/freelancer/dashboard/page.tsx:119 | only the first occurrence is replaced |
| Strings.ReplaceFirstRemovesOne | src/app/freelancer/dashboard/page.tsx:119 | replacing removes exactly one occurrence, so a string with at most one '_' has none afterwards |
| Workflows.SignupThenSignIn | src/app/api/auth/signup/route.ts:40-46 | a new account signs in with its password when compare accepts a password against its own hash, and its session carries the assigned role |
| Workflows.CustomerBecomesFreelancer | src/app/api/freelancer/register/route.ts:41-50 | a customer who just signed up can register once, ending up FREELANCER with the submitted profile |
| Workflows.AssigneeCanUpload | src/app/api/upload/route.ts:57-87 | the freelancer assigned to an order can upload to it, and the record belongs to that order |
| Workflows.CreatorCanUpload | src/app/api/upload/route.ts:57-87 | the client who created an order can upload to it at once, and the record belongs to that order |
| Workflows.StrangerCannotUpload | src/app/api/upload/route.ts:56-63 | a caller who neither owns nor is assigned to the order gets 403 and nothing is recorded |

## Left out

- Order claiming (src/app/api/freelancer/orders/[id]/claim/route.ts): the dashboard only shows the form that posts to it, and the route is not part of this model.
- The options object in src/app/api/auth/[...nextauth]/route.ts is not part of this model. The credentials sign-in users actually reach runs its `authorize` (lines 22-48), which reports "No user found" and "Invalid password" separately. Its callbacks also differ: Google sign-ins are written the role 'USER', and `session` sets id and role only when the session already has a user. The uniform "Invalid credentials" failure of `Auth.Authorize` is therefore a property of the callback in src/lib/auth.ts. The `authorize` of src/lib/auth.ts is never invoked. Its options go only to `getServerSession`, from the upload route, the registration route, the freelancer dashboard and the order page (src/app/dashboard/orders/[id]/page.tsx:4-17). `getServerSession` runs `jwt` without a user, then `session`, and never `authorize`. `Auth.Authorize`, the user branch of `Auth.Jwt` and `Workflows.SignupThenSignIn` describe that code as written, not a reachable sign-in.
- Rendering, client form state and the pages that only call the routes above: src/app/services/order/page.tsx, src/app/freelancer/register/page.tsx, src/components/Navigation.tsx, src/app/page.tsx, src/app/dashboard/page.tsx, src/app/layout.tsx, src/app/services/page.tsx.
- src/components/FileUpload.tsx and src/components/FileList.tsx: the first is browser-side transfer I/O; the second formats sizes with floating-point logarithms and caches URLs in browser state.
- src/lib/storage.ts: signed-URL issuance is the opaque `sign` parameter.
- bcrypt hashing and comparison are the opaque `hash` and `compare` parameters. The Google provider and NextAuth's session transport are not modelled.
- Request bodies are assumed to be JSON objects whose fields have the types of the request datatypes. Two cases are not modelled: a body that is not JSON, which makes `request.json()` throw, and a field of another type. One such field is the string `hourlyRate` the registration form sends once the rate is edited (src/app/freelancer/register/page.tsx:57-60); the registration route only tests that text for truthiness, so "0" passes, and writes it unparsed. In each route such input reaches the catch block's 500 or is passed to the database as sent.
- `Date.now()` is a parameter. `new Date(deadline)` keeps the submitted text; which texts JavaScript's `Date` parses is the opaque `isDate` parameter of `Orders.HandleCreateOrder`, and an unparseable deadline takes the 500 path. `parseFloat(price)` is an integer; NaN and fractions are not modelled.
- Prisma behaviour the code does not show:
  - Default column values are the `initialStatus` and `defaults` parameters.
  - Fresh row ids are parameters, with freshness as a precondition.
  - Where the code relies on the database raising (an update of a missing row, a link to a missing file), the model answers with the catch block's 500 and leaves the store unchanged.
  - Other internal failures are not modelled.
- Users without an email address (possible with federated sign-in) are outside the store, which is keyed by email.
- The client's name and email included with each claimed order on the dashboard are display data and are left out of `FreelancerDashboard.Dashboard`.
- Strings.ToLower: lower-cases ASCII letters only, which covers the seven status names. JavaScript's full Unicode case mapping is not modelled.
- Middleware.Handle: `SignInRequired` stands for the authentication wrapper's own redirect to its sign-in page. Path normalisation and empty path segments in the matcher are not modelled.
- JavaScript string length counts UTF-16 code units; the password-length check counts characters.
- FreelancerDirectory.Average: bounded by the least and greatest rating; the identity average × count = sum is not stated as a separate contract. The mean is an exact real, not an IEEE double. For integer ratings, the zero test and the rounded star count agree with the page's double arithmetic.

=== FILE: auth.dfy ===
/** The credentials provider and the two NextAuth callbacks of the
    authentication options, with bcrypt's compare passed in as a function. */
module Auth {
  import opened JsValues
  import opened Domain

  /** What the sign-in form submits. */
  datatype Credentials = Credentials(email: Option<string>, password: Option<string>)

  /** The JWT: the standard claims NextAuth fills in, plus the `id` and `role`
      the `jwt` callback adds. */
  datatype Token = Token(
    name: Option<string>,
    email: Option<string>,
    picture: Option<string>,
    sub: Option<string>,
    id: Option<string>,
    role: Option<Role>)

  /** The `user` object of a session. */
  datatype SessionUser = SessionUser(
    id: Option<string>,
    name: Option<string>,
    email: Option<string>,
    image: Option<string>,
    role: Option<Role>)

  /** A session as `getServerSession` returns it. */
  datatype Session = Session(user: Option<SessionUser>, expires: string)

  /** `session?.user?.email` when it is truthy: the identity every protected
      route keys its lookups on. */
  function SessionEmail(session: Option<Session>): (r: Option<string>)
    ensures r.Some? ==> r.value != ""
    ensures r.Some? <==> session.Some? && session.value.user.Some? && TruthyString(session.value.user.value.email)
  {
    if session.Some? && session.value.user.Some? && TruthyString(session.value.user.value.email)
    then session.value.user.value.email
    else None
  }

  const InvalidCredentials := "Invalid credentials"

  /** The `authorize` callback. Every failure throws the same message, so a
      caller cannot tell a missing account from a wrong password. */
  function Authorize(creds: Option<Credentials>, st: Store, compare: (string, string) -> bool): (r: Result<User>)
    ensures r.Failure? ==> r.error == InvalidCredentials
    ensures r.Success? <==>
      && creds.Some?
      && TruthyString(creds.value.email)
      && TruthyString(creds.value.password)
      && creds.value.email.value in st.users
      && TruthyString(st.users[creds.value.email.value].password)
      && compare(creds.value.password.value, st.users[creds.value.email.value].password.value)
    ensures r.Success? ==> r.value == st.users[creds.value.email.value]
  {
    if creds.None? || !TruthyString(creds.value.email) || !TruthyString(creds.value.password) then
      Failure(InvalidCredentials)
    else
      var email := creds.value.email.value;
      if email !in st.users || !TruthyString(st.users[email].password) then
        Failure(InvalidCredentials)
      else if !compare(creds.value.password.value, st.users[email].password.value) then
        Failure(InvalidCredentials)
      else
        Success(st.users[email])
  }

  /** The `jwt` callback: on sign-in the token gains the user's id and role;
      otherwise it passes through untouched. */
  function Jwt(token: Token, user: Option<User>): (r: Token)
    ensures user.None? ==> r == token
    ensures user.Some? ==> r.id == Some(user.value.id) && r.role == Some(user.value.role)
    ensures r.name == token.name && r.email == token.email && r.picture == token.picture && r.sub == token.sub
  {
    if user.Some? then token.(id := Some(user.value.id), role := Some(user.value.role)) else token
  }

  /** The `session` callback: id and role are copied from the token into
      `session.user`; the other user fields and the expiry are kept. */
  function SessionCallback(session: Session, token: Token): (r: Session)
    ensures r.expires == session.expires
    ensures r.user.Some? && r.user.value.id == token.id && r.user.value.role == token.role
    ensures session.user.Some? ==>
      && r.user.value.name == session.user.value.name
      && r.user.value.email == session.user.value.email
      && r.user.value.image == session.user.value.image
    ensures session.user.None? ==> r.user.value.name.None? && r.user.value.email.None? && r.user.value.image.None?
  {
    var base := if session.user.Some? then session.user.value else SessionUser(None, None, None, None, None);
    Session(Some(base.(id := token.id, role := token.role)), session.expires)
  }

  /** Signing in with good credentials and running both callbacks yields a
      session whose user carries the account's id and role. */
  lemma SignInSessionCarriesIdentity(creds: Option<Credentials>, st: Store, compare: (string, string) -> bool, token: Token, session: Session)
    requires Authorize(creds, st, compare).Success?
    ensures var u := Authorize(creds, st, compare).value;
      var s := SessionCallback(session, Jwt(token, Some(u)));
      s.user.value.id == Some(u.id) && s.user.value.role == Some(u.role) && u == st.users[creds.value.email.value]
  {
  }
}

=== FILE: dashboard.dfy ===
/** The freelancer dashboard page: which orders a freelancer sees as available
    to claim and as their own active work, in which order, and how a status is
    labelled. */
module FreelancerDashboard {
  import opened JsValues
  import opened Strings
  import opened Domain
  import opened Auth

  /** Open for claiming: still PENDING and nobody assigned. */
  predicate IsAvailable(o: Order) {
    o.status == Pending && o.freelancerId.None?
  }

  /** Assigned to freelancer `id` and not yet COMPLETED (CANCELLED counts). */
  predicate IsClaimedBy(o: Order, id: string) {
    o.freelancerId == Some(id) && o.status != Completed
  }

  /** An order is never both available and someone's active work. */
  lemma AvailableAndClaimedDisjoint(o: Order, id: string)
    ensures !(IsAvailable(o) && IsClaimedBy(o, id))
  {
  }

  datatype SortKey = ByCreated | ByUpdated

  function Stamp(o: Order, k: SortKey): int {
    match k
    case ByCreated => o.createdAt
    case ByUpdated => o.updatedAt
  }

  /** Newest first by the chosen timestamp. */
  predicate SortedDesc(s: seq<Order>, k: SortKey) {
    forall i, j :: 0 <= i < j < |s| ==> Stamp(s[j], k) <= Stamp(s[i], k)
  }

  /** Inserts `o` into a newest-first list, keeping it newest first. */
  function InsertDesc(s: seq<Order>, o: Order, k: SortKey): (r: seq<Order>)
    requires SortedDesc(s, k)
    ensures SortedDesc(r, k)
    ensures multiset(r) == multiset(s) + multiset{o}
  {
    if s == [] then [o]
    else if Stamp(s[0], k) <= Stamp(o, k) then [o] + s
    else
      var rest := InsertDesc(s[1..], o, k);
      assert s == [s[0]] + s[1..];
      ConsSorted(s[0], s[1..], o, rest, k);
      [s[0]] + rest
  }

  /** Putting back the head of a newest-first list in front of its tail with
      an older row inserted keeps the list newest first. */
  lemma ConsSorted(h: Order, t: seq<Order>, o: Order, rest: seq<Order>, k: SortKey)
    requires SortedDesc([h] + t, k) && Stamp(o, k) <= Stamp(h, k)
    requires SortedDesc(rest, k) && multiset(rest) == multiset(t) + multiset{o}
    ensures SortedDesc([h] + rest, k)
  {
    forall x | x in rest
      ensures Stamp(x, k) <= Stamp(h, k)
    {
      assert x in multiset(rest);
      if x != o {
        assert x in multiset(t);
        var j :| 0 <= j < |t| && t[j] == x;
        assert ([h] + t)[j + 1] == x && ([h] + t)[0] == h;
      }
    }
    var s := [h] + rest;
    forall i, j | 0 <= i < j < |s|
      ensures Stamp(s[j], k) <= Stamp(s[i], k)
    {
      if i == 0 {
        assert s[j] == rest[j - 1] && s[j] in rest;
      } else {
        assert s[i] == rest[i - 1] && s[j] == rest[j - 1];
      }
    }
  }

  /** `orderBy: { <k>: 'desc' }` over a set of rows: every row exactly once,
      newest first. */
  method SortNewestFirst(rows: set<Order>, k: SortKey) returns (r: seq<Order>)
    ensures SortedDesc(r, k)
    ensures multiset(r) == multiset(rows)
  {
    r := [];
    var rest := rows;
    while rest != {}
      invariant rest <= rows
      invariant SortedDesc(r, k)
      invariant multiset(r) == multiset(rows - rest)
      decreases rest
    {
      var o :| o in rest;
      assert rows - (rest - {o}) == (rows - rest) + {o};
      r := InsertDesc(r, o, k);
      rest := rest - {o};
    }
    assert rows - rest == rows;
  }

  /** The rows the "available" query selects: `status: 'PENDING', freelancerId: null`. */
  function AvailableRows(st: Store): set<Order> {
    set o | o in st.orders.Values && IsAvailable(o)
  }

  /** The rows the "claimed" query selects: `freelancerId: id, NOT status: 'COMPLETED'`. */
  function ClaimedRows(st: Store, id: string): set<Order> {
    set o | o in st.orders.Values && IsClaimedBy(o, id)
  }

  datatype Dashboard = Dashboard(available: seq<Order>, claimed: seq<Order>)

  /** `getFreelancerOrders`: nothing for an unknown account or one that is not a
      freelancer; otherwise the open orders newest-created first, and the
      caller's unfinished orders most-recently-updated first. */
  method GetFreelancerOrders(email: string, st: Store) returns (r: Option<Dashboard>)
    ensures r.None? <==> email !in st.users || st.users[email].role != Freelancer
    ensures r.Some? ==>
      && multiset(r.value.available) == multiset(AvailableRows(st))
      && SortedDesc(r.value.available, ByCreated)
      && multiset(r.value.claimed) == multiset(ClaimedRows(st, st.users[email].id))
      && SortedDesc(r.value.claimed, ByUpdated)
      && (forall o :: o in r.value.available ==> o !in r.value.claimed)
  {
    if email !in st.users || st.users[email].role != Freelancer {
      return None;
    }
    var id := st.users[email].id;
    var available := SortNewestFirst(AvailableRows(st), ByCreated);
    var claimed := SortNewestFirst(ClaimedRows(st, id), ByUpdated);
    forall o | o in available
      ensures o !in claimed
    {
      assert o in multiset(available);
      if o in claimed {
        assert o in multiset(claimed);
        AvailableAndClaimedDisjoint(o, id);
      }
    }
    return Some(Dashboard(available, claimed));
  }

  /** What the page does. */
  datatype Page = RedirectTo(path: string) | Show(dashboard: Dashboard)

  /** The page: to sign-in without a session, to freelancer registration when
      the account is not a freelancer, else the two lists. */
  method DashboardPage(session: Option<Session>, st: Store) returns (p: Page)
    ensures SessionEmail(session).None? ==> p == RedirectTo("/auth/signin")
    ensures SessionEmail(session).Some? ==>
      var email := SessionEmail(session).value;
      (p == RedirectTo("/freelancer/register") <==> email !in st.users || st.users[email].role != Freelancer)
    ensures p.Show? <==>
      SessionEmail(session).Some? && SessionEmail(session).value in st.users
      && st.users[SessionEmail(session).value].role == Freelancer
    ensures p.Show? ==>
      && SessionEmail(session).Some? && SessionEmail(session).value in st.users
      && multiset(p.dashboard.available) == multiset(AvailableRows(st))
      && SortedDesc(p.dashboard.available, ByCreated)
      && multiset(p.dashboard.claimed) == multiset(ClaimedRows(st, st.users[SessionEmail(session).value].id))
      && SortedDesc(p.dashboard.claimed, ByUpdated)
  {
    var email := SessionEmail(session);
    if email.None? {
      return RedirectTo("/auth/signin");
    }
    var orders := GetFreelancerOrders(email.value, st);
    if orders.None? {
      return RedirectTo("/freelancer/register");
    }
    return Show(orders.value);
  }

  /** The badge colour of an active order. */
  datatype Badge = Blue | Yellow | Gray

  function BadgeOf(s: OrderStatus): (b: Badge)
    ensures b == Blue <==> s == InProgress
    ensures b == Yellow <==> s == InReview
    ensures b == Gray <==> s != InProgress && s != InReview
  {
    if s == InProgress then Blue else if s == InReview then Yellow else Gray
  }

  /** `name.charAt(0) + name.slice(1).toLowerCase().replace('_', ' ')` for a
      name holding at most one '_' after its first character: each later
      character is either lower-cased or, where the name has its '_', a space. */
  function Capitalize(name: string): (r: string)
    requires |name| >= 1 && name[0] != '_' && Count(name[1..], '_') <= 1
    ensures |r| == |name| && r[0] == name[0]
    ensures forall i :: 1 <= i < |r| ==> r[i] == (if name[i] == '_' then ' ' else LowerChar(name[i]))
    ensures '_' !in r
  {
    var low := ToLower(name[1..]);
    var rest := ReplaceFirst(low, '_', ' ');
    LowerKeepsUnderscores(name[1..]);
    ReplaceFirstRemovesOne(low, '_', ' ');
    assert forall k :: 0 <= k < |rest| ==> rest[k] == (if name[k + 1] == '_' then ' ' else LowerChar(name[k + 1])) by {
      forall k | 0 <= k < |rest|
        ensures rest[k] == (if name[k + 1] == '_' then ' ' else LowerChar(name[k + 1]))
      {
        if '_' in low && k == IndexOf(low, '_') {
        } else {
          assert rest[k] == low[k] && rest[k] in rest;
        }
      }
    }
    [name[0]] + rest
  }

  /** The badge text of a status. */
  function StatusLabel(s: OrderStatus): (r: string)
    ensures |r| == |StatusName(s)| && r[0] == StatusName(s)[0]
    ensures forall i :: 1 <= i < |r| ==>
      r[i] == (if StatusName(s)[i] == '_' then ' ' else LowerChar(StatusName(s)[i]))
    ensures '_' !in r
  {
    CountStatusNames(s);
    Capitalize(StatusName(s))
  }

  lemma CountStatusNames(s: OrderStatus)
    ensures StatusName(s)[0] != '_' && Count(StatusName(s)[1..], '_') <= 1
  {
    match s
    case InProgress =>
      assert StatusName(s)[1..] == "N" + "_" + "PROGRESS";
      CountSplit("N", "PROGRESS");
    case InReview =>
      assert StatusName(s)[1..] == "N" + "_" + "REVIEW";
      CountSplit("N", "REVIEW");
    case _ =>
      assert '_' !in StatusName(s)[1..];
      CountZero(StatusName(s)[1..], '_');
  }

  /** A word, one '_', and a word: one underscore in all. */
  lemma CountSplit(a: string, b: string)
    requires forall i :: 0 <= i < |a| ==> a[i] != '_'
    requires forall i :: 0 <= i < |b| ==> b[i] != '_'
    ensures Count(a + "_" + b, '_') == 1
  {
    CountAppend(a + "_", b, '_');
    CountAppend(a, "_", '_');
    CountZero(a, '_');
    CountZero(b, '_');
    assert Count("_", '_') == 1 by { assert "_"[1..] == []; }
  }

  lemma {:induction false} LowerKeepsUnderscores(s: string)
    ensures Count(ToLower(s), '_') == Count(s, '_')
  {
    if s != [] {
      LowerKeepsUnderscores(s[1..]);
      assert ToLower(s)[1..] == ToLower(s[1..]);
    }
  }

  /** IN_PROGRESS is shown as "In progress". */
  lemma InProgressLabel()
    ensures StatusLabel(InProgress) == "In progress"
  {
  }
}

=== FILE: directory.dfy ===
/** The public freelancer directory: who is listed, and how each card shows
    the mean of the freelancer's review ratings. */
module FreelancerDirectory {
  import opened JsValues
  import opened Domain

  /** What the listing query selects for one freelancer. */
  datatype Listing = Listing(
    id: string,
    name: Option<string>,
    email: string,
    image: Option<string>,
    bio: Option<string>,
    skills: Option<string>,
    hourlyRate: Option<int>,
    ratings: seq<int>)

  /** The query's filter: `role: 'FREELANCER', isAvailable: true`. */
  predicate IsListed(u: User) {
    u.role == Freelancer && u.profile.isAvailable
  }

  /** The ratings of the reviews written for freelancer `id`, in review order:
      each rating occurs exactly as often as a review of `id` with that rating. */
  function RatingsFor(reviews: seq<Review>, id: string): (r: seq<int>)
    ensures |r| <= |reviews|
    ensures forall x :: x in r <==> exists i :: 0 <= i < |reviews| && reviews[i].freelancerId == id && reviews[i].rating == x
    ensures forall x :: multiset(r)[x] == multiset(reviews)[Review(x, id)]
  {
    if reviews == [] then []
    else
      var rest := RatingsFor(reviews[1..], id);
      assert forall i :: 1 <= i < |reviews| ==> reviews[i] == reviews[1..][i - 1];
      assert reviews == [reviews[0]] + reviews[1..];
      if reviews[0].freelancerId == id then [reviews[0].rating] + rest else rest
  }

  function ListingOf(u: User, reviews: seq<Review>): Listing {
    Listing(u.id, u.name, u.email, u.image, u.profile.bio, u.profile.skills, u.profile.hourlyRate, RatingsFor(reviews, u.id))
  }

  /** `getFreelancers`: one listing per available freelancer, in no
      particular order. */
  function GetFreelancers(st: Store): (r: set<Listing>)
    ensures forall e :: e in st.users && IsListed(st.users[e]) ==> ListingOf(st.users[e], st.reviews) in r
    ensures forall l :: l in r ==> exists e :: e in st.users && IsListed(st.users[e]) && l == ListingOf(st.users[e], st.reviews)
  {
    set e | e in st.users && IsListed(st.users[e]) :: ListingOf(st.users[e], st.reviews)
  }

  /** In a valid store each listing names one account, so an account is listed
      exactly when it is an available freelancer, with its own reviews. */
  lemma ListedIff(st: Store, e: string)
    requires Valid(st) && e in st.users
    ensures ListingOf(st.users[e], st.reviews) in GetFreelancers(st) <==> IsListed(st.users[e])
    ensures ListingOf(st.users[e], st.reviews).ratings == RatingsFor(st.reviews, st.users[e].id)
  {
    var l := ListingOf(st.users[e], st.reviews);
    if l in GetFreelancers(st) {
      var e' :| e' in st.users && IsListed(st.users[e']) && l == ListingOf(st.users[e'], st.reviews);
      assert st.users[e'].email == e' && st.users[e].email == e;
    }
  }

  function Sum(s: seq<int>): int {
    if s == [] then 0 else s[0] + Sum(s[1..])
  }

  function Min(s: seq<int>): (m: int)
    requires |s| > 0
    ensures forall i :: 0 <= i < |s| ==> m <= s[i]
    ensures m in s
  {
    if |s| == 1 then s[0]
    else
      var t := Min(s[1..]);
      assert forall i :: 1 <= i < |s| ==> s[i] == s[1..][i - 1];
      if s[0] <= t then s[0] else t
  }

  function Max(s: seq<int>): (m: int)
    requires |s| > 0
    ensures forall i :: 0 <= i < |s| ==> s[i] <= m
    ensures m in s
  {
    if |s| == 1 then s[0]
    else
      var t := Max(s[1..]);
      assert forall i :: 1 <= i < |s| ==> s[i] == s[1..][i - 1];
      if t <= s[0] then s[0] else t
  }

  /** A sum of `|s|` ratings lies between `|s|` times the smallest and `|s|`
      times the largest. */
  lemma {:induction false} SumBounds(s: seq<int>)
    requires |s| > 0
    ensures |s| * Min(s) <= Sum(s) <= |s| * Max(s)
  {
    if |s| > 1 {
      var t := s[1..];
      var lo, hi := Min(s), Max(s);
      SumBounds(t);
      assert Sum(s) == s[0] + Sum(t);
      assert lo <= s[0] <= hi;
      assert lo <= Min(t) && Max(t) <= hi by {
        assert Min(t) in s && Max(t) in s;
      }
      MulMonotone(|t|, lo, Min(t));
      MulMonotone(|t|, Max(t), hi);
      Distrib(|t|, lo);
      Distrib(|t|, hi);
    }
  }

  lemma MulMonotone(n: nat, a: int, b: int)
    requires a <= b
    ensures n * a <= n * b
  {
  }

  lemma Distrib(n: nat, m: int)
    ensures (n + 1) * m == m + n * m
  {
  }

  /** `ratings.reduce(+, 0) / ratings.length`, or null when there are none. */
  function Average(ratings: seq<int>): (r: Option<real>)
    ensures r.None? <==> |ratings| == 0
    ensures r.Some? ==> Min(ratings) as real <= r.value <= Max(ratings) as real
    ensures r.Some? ==> (r.value == 0.0 <==> Sum(ratings) == 0)
  {
    if |ratings| == 0 then None
    else
      var total := Sum(ratings);
      var count := |ratings|;
      SumBounds(ratings);
      MeanOf(total, count, Min(ratings), Max(ratings));
      Some(total as real / count as real)
  }

  /** The mean of `count` numbers summing to `total`, all between `lo` and `hi`. */
  lemma MeanOf(total: int, count: int, lo: int, hi: int)
    requires count > 0 && count * lo <= total <= count * hi
    ensures lo as real <= total as real / count as real <= hi as real
    ensures total as real / count as real == 0.0 <==> total == 0
  {
    IntProductAsReal(count, lo);
    IntProductAsReal(count, hi);
    DivideBounds(total as real, count as real, lo as real, hi as real);
  }

  lemma IntProductAsReal(a: int, b: int)
    ensures (a * b) as real == (a as real) * (b as real)
  {
  }

  lemma DivideBounds(total: real, n: real, lo: real, hi: real)
    requires n > 0.0 && n * lo <= total <= n * hi
    ensures lo <= total / n <= hi
    ensures total / n == 0.0 <==> total == 0.0
  {
  }

  /** `Math.round`: the nearest integer, with halves rounded up (towards
      positive infinity, so -2.5 rounds to -2). */
  function Round(x: real): (r: int)
    ensures x - 0.5 < r as real <= x + 0.5
  {
    (x + 0.5).Floor
  }

  function Clamp(x: int, lo: int, hi: int): int
    requires lo <= hi
  {
    if x < lo then lo else if hi < x then hi else x
  }

  function FilledCount(stars: seq<bool>): (n: nat)
    ensures n <= |stars|
  {
    if stars == [] then 0 else (if stars[0] then 1 else 0) + FilledCount(stars[1..])
  }

  /** The five stars, star `i` filled when `i < Math.round(average)`: the filled
      stars come first, and there are as many as the rounded average allows. */
  function Stars(average: real): (stars: seq<bool>)
    ensures |stars| == 5
    ensures forall i, j :: 0 <= i < j < 5 && stars[j] ==> stars[i]
    ensures FilledCount(stars) == Clamp(Round(average), 0, 5)
  {
    var stars := seq(5, i => i < Round(average));
    PrefixCount(stars, Clamp(Round(average), 0, 5));
    stars
  }

  lemma {:induction false} PrefixCount(stars: seq<bool>, k: nat)
    requires k <= |stars|
    requires forall i :: 0 <= i < |stars| ==> (stars[i] <==> i < k)
    ensures FilledCount(stars) == k
  {
    if stars != [] {
      PrefixCount(stars[1..], if k == 0 then 0 else k - 1);
    }
  }

  /** The rating line of a card: the stars and the review count. */
  datatype RatingBlock = RatingBlock(stars: seq<bool>, reviewCount: nat)

  /** One directory card. */
  datatype Card = Card(title: string, avatar: string, rating: Option<RatingBlock>, bio: string, listing: Listing)

  /** A card: the fallbacks for a missing name, picture and bio, and the rating
      line, drawn only when the average exists and is not zero. */
  function CardOf(l: Listing): (c: Card)
    ensures c.title == OrElse(l.name, "Anonymous Freelancer")
    ensures c.avatar == OrElse(l.image, "/default-avatar.png")
    ensures c.bio == OrElse(l.bio, "No bio available")
    ensures c.rating.Some? <==> |l.ratings| > 0 && Sum(l.ratings) != 0
    ensures c.rating.Some? ==>
      && c.rating.value.reviewCount == |l.ratings|
      && c.rating.value.stars == Stars(Average(l.ratings).value)
    ensures c.listing == l
  {
    var avg := Average(l.ratings);
    Card(
      OrElse(l.name, "Anonymous Freelancer"),
      OrElse(l.image, "/default-avatar.png"),
      if avg.Some? && avg.value != 0.0 then Some(RatingBlock(Stars(avg.value), |l.ratings|)) else None,
      OrElse(l.bio, "No bio available"),
      l)
  }

  /** With reviews rated 1 to 5, the rating line is always drawn and between
      one and five stars are filled, as many as the rounded mean. */
  lemma OneToFiveRatings(l: Listing)
    requires |l.ratings| > 0
    requires forall i :: 0 <= i < |l.ratings| ==> 1 <= l.ratings[i] <= 5
    ensures CardOf(l).rating.Some?
    ensures var n := FilledCount(CardOf(l).rating.value.stars);
      1 <= n <= 5 && n == Round(Average(l.ratings).value)
  {
    var avg := Average(l.ratings).value;
    SumBounds(l.ratings);
    assert 1.0 <= avg <= 5.0;
  }
}

=== FILE: domain.dfy ===
/** The persistent records the routes read and write, and the store that holds them. */
module Domain {
  import opened JsValues

  /** The role a user record carries: 'CUSTOMER', 'FREELANCER' or 'ADMIN'. */
  datatype Role = Customer | Freelancer | Admin

  /** The seven order statuses of src/types/order.ts. */
  datatype OrderStatus = Pending | Claimed | InProgress | InReview | Revision | Completed | Cancelled

  function StatusName(s: OrderStatus): (r: string)
    ensures |r| >= 1
  {
    match s
    case Pending => "PENDING"
    case Claimed => "CLAIMED"
    case InProgress => "IN_PROGRESS"
    case InReview => "IN_REVIEW"
    case Revision => "REVISION"
    case Completed => "COMPLETED"
    case Cancelled => "CANCELLED"
  }

  /** Reads a stored status string back; anything but the seven names is rejected. */
  function ParseStatus(s: string): (r: Option<OrderStatus>)
    ensures r.Some? ==> StatusName(r.value) == s
  {
    if s == "PENDING" then Some(Pending)
    else if s == "CLAIMED" then Some(Claimed)
    else if s == "IN_PROGRESS" then Some(InProgress)
    else if s == "IN_REVIEW" then Some(InReview)
    else if s == "REVISION" then Some(Revision)
    else if s == "COMPLETED" then Some(Completed)
    else if s == "CANCELLED" then Some(Cancelled)
    else None
  }

  /** Every status survives being written as its name and read back, so the
      seven names are pairwise distinct. */
  lemma StatusNameRoundTrip(s: OrderStatus)
    ensures ParseStatus(StatusName(s)) == Some(s)
  {
  }

  /** The freelancer profile columns of a user. */
  datatype Profile = Profile(bio: Option<string>, skills: Option<string>, hourlyRate: Option<int>, isAvailable: bool)

  /** A user row. `password` holds the stored hash, absent for federated accounts. */
  datatype User = User(
    id: string,
    name: Option<string>,
    email: string,
    image: Option<string>,
    password: Option<string>,
    role: Role,
    profile: Profile)

  /** An order row. The deadline is kept as the submitted text and the price as
      the parsed number; timestamps are milliseconds. */
  datatype Order = Order(
    id: string,
    title: string,
    description: string,
    requirements: Option<string>,
    deadline: string,
    price: int,
    status: OrderStatus,
    userId: string,
    freelancerId: Option<string>,
    createdAt: int,
    updatedAt: int)

  /** A file-metadata row. `orderId` is the general order link; `sourceOrder`
      and `deliveryOrder` are the two artifact-role links. */
  datatype FileUpload = FileUpload(
    id: string,
    filename: string,
    key: string,
    size: nat,
    mimeType: string,
    orderId: string,
    sourceOrder: Option<string>,
    deliveryOrder: Option<string>)

  /** A review row: its rating and the freelancer it was written for. */
  datatype Review = Review(rating: int, freelancerId: string)

  /** The database: users by email, orders and files by id, and the reviews. */
  datatype Store = Store(
    users: map<string, User>,
    orders: map<string, Order>,
    files: map<string, FileUpload>,
    reviews: seq<Review>)

  /** Is `id` the id of some user? */
  predicate UserIdTaken(st: Store, id: string) {
    exists e :: e in st.users && st.users[e].id == id
  }

  predicate OrderRef(st: Store, link: Option<string>) {
    link.Some? ==> link.value in st.orders
  }

  /** The keys and foreign keys the database enforces: users are filed under
      their email and have distinct ids, orders and files under their id, and
      every file link names an existing order. */
  ghost predicate Valid(st: Store) {
    && (forall e :: e in st.users ==> st.users[e].email == e)
    && (forall e1, e2 :: e1 in st.users && e2 in st.users && st.users[e1].id == st.users[e2].id ==> e1 == e2)
    && (forall k :: k in st.orders ==> st.orders[k].id == k)
    && (forall f :: f in st.files ==>
          && st.files[f].id == f
          && st.files[f].orderId in st.orders
          && OrderRef(st, st.files[f].sourceOrder)
          && OrderRef(st, st.files[f].deliveryOrder))
  }

  /** The ids of the files linked to order `id` as its source footage. */
  function SourceFilesOf(st: Store, id: string): (r: set<string>)
    ensures forall f :: f in r <==> f in st.files && st.files[f].sourceOrder == Some(id)
  {
    set f | f in st.files && st.files[f].sourceOrder == Some(id)
  }
}

=== FILE: http.dfy ===
/** What a route handler answers: a JSON body with a status code, or an error
    object `{ error: message }` with a status code. */
module Http {

  datatype Response<+T> = Reply(status: int, body: T) | Error(status: int, message: string)

}

=== FILE: js_values.dfy ===
/** JSON values as the route handlers see them after `request.json()`, and the
    JavaScript truthiness tests (`!x`) the handlers apply to them. */
module JsValues {

  /** An optional value: `None` stands for a field that is absent, `null` or `undefined`. */
  datatype Option<+T> = None | Some(value: T)

  /** A value or an error message, for callbacks that `throw new Error(message)`. */
  datatype Result<+T> = Success(value: T) | Failure(error: string)

  /** `!!x` for a string field: absent, null and the empty string are falsy. */
  predicate TruthyString(x: Option<string>) {
    x.Some? && x.value != ""
  }

  /** `!!x` for a numeric field: absent, null and zero are falsy. */
  predicate TruthyNumber(x: Option<int>) {
    x.Some? && x.value != 0
  }

  /** `x || fallback` for an optional string. */
  function OrElse(x: Option<string>, fallback: string): (r: string)
    ensures TruthyString(x) ==> r == x.value
    ensures !TruthyString(x) ==> r == fallback
  {
    if x.Some? && x.value != "" then x.value else fallback
  }
}

=== FILE: middleware.dfy ===
/** The request middleware: which paths it runs on, who may pass, and the
    redirect of signed-in users away from the sign-in pages. */
module Middleware {
  import opened JsValues
  import opened Strings
  import opened Auth

  /** What happens to a request. `SignInRequired` is the authentication
      wrapper's own answer when `authorized` returns false. */
  datatype Outcome = PassThrough | RedirectTo(url: string) | SignInRequired

  /** `path` is `base` or lies below it: the paths `<base>/:path*` matches. */
  predicate Under(path: string, base: string) {
    path == base || StartsWith(path, base + "/")
  }

  /** The route matcher: `/dashboard/:path*` and `/auth/:path*`. Every matched
      path starts with one of the two bases. */
  predicate Matched(path: string)
    ensures Matched(path) ==> StartsWith(path, "/dashboard") || StartsWith(path, "/auth")
  {
    Under(path, "/dashboard") || Under(path, "/auth")
  }

  predicate IsAuthPage(path: string) {
    StartsWith(path, "/auth/")
  }

  /** The `authorized` callback: the sign-in pages are public, every other
      matched path needs a token. */
  function Authorized(path: string, token: Option<Token>): (ok: bool)
    ensures IsAuthPage(path) ==> ok
    ensures !IsAuthPage(path) ==> (ok <==> token.Some?)
  {
    if IsAuthPage(path) then true else token.Some?
  }

  /** The middleware function proper: a signed-in user asking for a sign-in
      page is sent to the dashboard; everything else goes through. */
  function Redirect(path: string, token: Option<Token>): (o: Outcome)
    ensures o == RedirectTo("/dashboard") <==> IsAuthPage(path) && token.Some?
    ensures o != RedirectTo("/dashboard") ==> o == PassThrough
  {
    if IsAuthPage(path) && token.Some? then RedirectTo("/dashboard") else PassThrough
  }

  /** The whole chain for one request: unmatched paths skip the middleware;
      matched ones are first checked by `authorized`, then redirected or passed. */
  function Handle(path: string, token: Option<Token>): (o: Outcome)
    ensures !Matched(path) ==> o == PassThrough
    ensures Matched(path) && !Authorized(path, token) ==> o == SignInRequired
    ensures Matched(path) && Authorized(path, token) ==> o == Redirect(path, token)
  {
    if !Matched(path) then PassThrough
    else if !Authorized(path, token) then SignInRequired
    else Redirect(path, token)
  }

  /** A "/auth/..." path is always under the matcher. */
  lemma AuthPagesAreMatched(path: string)
    requires IsAuthPage(path)
    ensures Matched(path)
  {
    assert StartsWith(path, "/auth" + "/");
  }

  /** The matcher works on whole path segments: a path that merely shares the
      "/dashboard" prefix, such as "/dashboards", is left alone. */
  lemma SiblingPathNotMatched(path: string)
    requires StartsWith(path, "/dashboard") && |path| > 10 && path[10] != '/'
    ensures !Matched(path)
    ensures Handle(path, None) == PassThrough
  {
    assert path[..10] == "/dashboard";
    assert path[1] == 'd';
  }

  /** A visitor without a token reaches every sign-in page unredirected; a
      signed-in user is always sent on to the dashboard. */
  lemma AuthPageOutcomes(path: string, token: Option<Token>)
    requires IsAuthPage(path)
    ensures token.None? ==> Handle(path, token) == PassThrough
    ensures token.Some? ==> Handle(path, token) == RedirectTo("/dashboard")
  {
    AuthPagesAreMatched(path);
  }

  /** Every dashboard path needs a token, and with one it goes through. */
  lemma DashboardNeedsToken(path: string, token: Option<Token>)
    requires Under(path, "/dashboard")
    ensures Handle(path, token) == (if token.Some? then PassThrough else SignInRequired)
  {
    assert path[1] == 'd' by {
      if path != "/dashboard" {
        assert path[..11] == "/dashboard/";
        assert path[1] == path[..11][1];
      }
    }
    assert !IsAuthPage(path);
  }

  /** The bare "/auth" path is matched but is not a sign-in page, so it
      demands a token like the dashboard does. */
  lemma BareAuthPathNeedsToken()
    ensures Handle("/auth", None) == SignInRequired
  {
    assert !IsAuthPage("/auth");
  }
}

=== FILE: orders.dfy ===
/** `POST /api/orders`: a signed-in client creates an order and links the
    files already uploaded for it as its source footage. */
module Orders {
  import opened JsValues
  import opened Domain
  import opened Http
  import opened Auth

  /** The JSON body. `price` is the submitted number (its parse is opaque here);
      `sourceFiles` is the list of file ids. */
  datatype OrderRequest = OrderRequest(
    title: Option<string>,
    description: Option<string>,
    requirements: Option<string>,
    deadline: Option<string>,
    price: Option<int>,
    sourceFiles: Option<seq<string>>)

  /** The success body: the order with its linked source files included. */
  datatype CreatedOrder = CreatedOrder(order: Order, sourceFiles: set<string>)

  /** The required-field check; the price is not part of it. */
  predicate FieldsPresent(req: OrderRequest) {
    && TruthyString(req.title)
    && TruthyString(req.description)
    && TruthyString(req.deadline)
    && req.sourceFiles.Some? && |req.sourceFiles.value| > 0
  }

  /** Would the create call go through? `price.toString()` throws on a missing
      price, the database refuses the Invalid Date that `new Date(deadline)`
      makes of text `isDate` does not accept, and linking an unknown file id
      makes the create fail. */
  predicate Creatable(req: OrderRequest, st: Store, isDate: string -> bool)
    requires FieldsPresent(req)
  {
    req.price.Some? && isDate(req.deadline.value) && forall i :: 0 <= i < |req.sourceFiles.value| ==> req.sourceFiles.value[i] in st.files
  }

  /** The files after the create: each listed file is re-linked to the new order
      as source footage; every other file is left as it was. */
  function LinkSources(files: map<string, FileUpload>, ids: seq<string>, orderId: string): (r: map<string, FileUpload>)
    ensures r.Keys == files.Keys
    ensures forall f :: f in files && f in ids ==> r[f] == files[f].(sourceOrder := Some(orderId))
    ensures forall f :: f in files && f !in ids ==> r[f] == files[f]
  {
    map f | f in files :: if f in ids then files[f].(sourceOrder := Some(orderId)) else files[f]
  }

  /** The handler. `now` stamps the new row, `newId` is the id the database
      assigns it, `initialStatus` is the schema's default status, and `isDate`
      says which deadline texts JavaScript's `Date` parses. */
  function HandleCreateOrder(session: Option<Session>, req: OrderRequest, st: Store, now: int, newId: string, initialStatus: OrderStatus, isDate: string -> bool): (out: (Response<CreatedOrder>, Store))
    requires newId !in st.orders
    ensures out.0.status == 401 <==> SessionEmail(session).None?
    ensures out.0.status == 400 <==> SessionEmail(session).Some? && !FieldsPresent(req)
    ensures out.0.status == 404 <==>
      SessionEmail(session).Some? && FieldsPresent(req) && SessionEmail(session).value !in st.users
    ensures out.0.status == 500 <==>
      SessionEmail(session).Some? && FieldsPresent(req) && SessionEmail(session).value in st.users
      && !Creatable(req, st, isDate)
    ensures out.0.Reply? <==>
      SessionEmail(session).Some? && FieldsPresent(req) && SessionEmail(session).value in st.users
      && Creatable(req, st, isDate)
    ensures out.0.Error? ==> out.1 == st
    ensures out.0.Reply? ==>
      var o := out.0.body.order;
      && out.0.status == 200
      && o.id == newId
      && o.userId == st.users[SessionEmail(session).value].id
      && o.title == req.title.value && o.description == req.description.value
      && o.requirements == req.requirements && o.deadline == req.deadline.value
      && o.price == req.price.value
      && o.status == initialStatus && o.freelancerId.None?
      && o.createdAt == now && o.updatedAt == now
      && out.1.orders == st.orders[newId := o]
      && out.1.users == st.users && out.1.reviews == st.reviews
      && out.1.files == LinkSources(st.files, req.sourceFiles.value, newId)
      && out.0.body.sourceFiles == SourceFilesOf(out.1, newId)
    ensures Valid(st) ==> Valid(out.1)
    ensures Valid(st) && out.0.Reply? ==>
      out.0.body.sourceFiles == set i | 0 <= i < |req.sourceFiles.value| :: req.sourceFiles.value[i]
  {
    var email := SessionEmail(session);
    if email.None? then (Error(401, "You must be signed in to create an order"), st)
    else if !FieldsPresent(req) then (Error(400, "Missing required fields"), st)
    else if email.value !in st.users then (Error(404, "User not found"), st)
    else if !Creatable(req, st, isDate) then (Error(500, "Internal server error"), st)
    else
      var ids := req.sourceFiles.value;
      var order := Order(newId, req.title.value, req.description.value, req.requirements,
        req.deadline.value, req.price.value, initialStatus, st.users[email.value].id, None, now, now);
      var st' := st.(orders := st.orders[newId := order], files := LinkSources(st.files, ids, newId));
      SourcesAreListed(st, st', ids, newId);
      (Reply(200, CreatedOrder(order, SourceFilesOf(st', newId))), st')
  }

  /** In a valid store no file points at a fresh id, so after linking, the
      order's source files are exactly the listed ones. */
  lemma SourcesAreListed(st: Store, st': Store, ids: seq<string>, newId: string)
    requires newId !in st.orders
    requires forall i :: 0 <= i < |ids| ==> ids[i] in st.files
    requires st'.files == LinkSources(st.files, ids, newId)
    ensures Valid(st) ==> SourceFilesOf(st', newId) == set i | 0 <= i < |ids| :: ids[i]
  {
    if Valid(st) {
      var listed := set i | 0 <= i < |ids| :: ids[i];
      forall f | f in SourceFilesOf(st', newId)
        ensures f in listed
      {
        assert f in st.files && OrderRef(st, st.files[f].sourceOrder);
        if f !in ids {
          assert false;
        } else {
          var i :| 0 <= i < |ids| && ids[i] == f;
        }
      }
      forall f | f in listed
        ensures f in SourceFilesOf(st', newId)
      {
        var i :| 0 <= i < |ids| && ids[i] == f;
        assert f in ids;
      }
    }
  }

  /** The price is never validated: with the other fields present, a negative
      or zero price leads to the same outcome as any other price. */
  lemma PriceSignNotChecked(session: Option<Session>, req: OrderRequest, st: Store, now: int, newId: string, initialStatus: OrderStatus, isDate: string -> bool, p: int)
    requires newId !in st.orders
    requires req.price.Some?
    ensures
      var a := HandleCreateOrder(session, req, st, now, newId, initialStatus, isDate);
      var b := HandleCreateOrder(session, req.(price := Some(p)), st, now, newId, initialStatus, isDate);
      a.0.status == b.0.status && (b.0.Reply? ==> b.0.body.order.price == p)
  {
  }
}

=== FILE: register.dfy ===
/** `POST /api/freelancer/register`: turns the signed-in account into a
    freelancer account, once. */
module FreelancerRegister {
  import opened JsValues
  import opened Domain
  import opened Http
  import opened Auth

  /** The JSON body. */
  datatype RegisterRequest = RegisterRequest(bio: Option<string>, skills: Option<string>, hourlyRate: Option<int>)

  const AlreadyFreelancer := "User is already registered as a freelancer"

  predicate Complete(req: RegisterRequest) {
    TruthyString(req.bio) && TruthyString(req.skills) && TruthyNumber(req.hourlyRate)
  }

  /** The handler. A missing account makes the update raise, which the catch
      block turns into a 500. */
  function HandleRegister(session: Option<Session>, req: RegisterRequest, st: Store): (out: (Response<User>, Store))
    ensures out.0.status == 401 <==> SessionEmail(session).None?
    ensures out.0 == Error(400, "Missing required fields") <==> SessionEmail(session).Some? && !Complete(req)
    ensures out.0 == Error(400, AlreadyFreelancer) <==>
      SessionEmail(session).Some? && Complete(req)
      && SessionEmail(session).value in st.users && st.users[SessionEmail(session).value].role == Freelancer
    ensures out.0.status == 500 <==>
      SessionEmail(session).Some? && Complete(req) && SessionEmail(session).value !in st.users
    ensures out.0.Reply? <==>
      SessionEmail(session).Some? && Complete(req)
      && SessionEmail(session).value in st.users && st.users[SessionEmail(session).value].role != Freelancer
    ensures out.0.Error? ==> out.1 == st
    ensures out.0.Reply? ==> SessionEmail(session).Some? && SessionEmail(session).value in out.1.users
    ensures out.0.Reply? ==>
      var email := SessionEmail(session).value;
      && out.0.status == 200
      && email in st.users && st.users[email].role != Freelancer
      && out.0.body == out.1.users[email]
      && out.0.body.role == Freelancer
      && out.0.body.profile == Profile(req.bio, req.skills, req.hourlyRate, true)
      && out.0.body.(role := st.users[email].role, profile := st.users[email].profile) == st.users[email]
      && out.1.users.Keys == st.users.Keys
      && (forall e :: e in st.users && e != email ==> out.1.users[e] == st.users[e])
      && out.1.orders == st.orders && out.1.files == st.files && out.1.reviews == st.reviews
    ensures Valid(st) ==> Valid(out.1)
  {
    var email := SessionEmail(session);
    if email.None? then (Error(401, "You must be signed in to register as a freelancer"), st)
    else if !Complete(req) then (Error(400, "Missing required fields"), st)
    else if email.value in st.users && st.users[email.value].role == Freelancer then (Error(400, AlreadyFreelancer), st)
    else if email.value !in st.users then (Error(500, "Internal server error"), st)
    else
      var u := st.users[email.value].(role := Freelancer, profile := Profile(req.bio, req.skills, req.hourlyRate, true));
      (Reply(200, u), st.(users := st.users[email.value := u]))
  }

  /** Registration is one-shot: after a successful promotion, any further
      call from the same session fails with 400 and changes nothing. */
  lemma {:induction false} RegisterTwiceFails(session: Option<Session>, req1: RegisterRequest, req2: RegisterRequest, st: Store)
    requires HandleRegister(session, req1, st).0.Reply?
    ensures var st1 := HandleRegister(session, req1, st).1;
      var again := HandleRegister(session, req2, st1);
      again.0.status == 400 && again.1 == st1
  {
    var st1 := HandleRegister(session, req1, st).1;
    var email := SessionEmail(session).value;
    assert st1.users[email].role == Freelancer;
  }

  /** The guard only looks for FREELANCER, so an ADMIN account that registers
      loses its ADMIN role. */
  lemma AdminIsReplacedByFreelancer(session: Option<Session>, req: RegisterRequest, st: Store)
    requires SessionEmail(session).Some? && Complete(req)
    requires SessionEmail(session).value in st.users && st.users[SessionEmail(session).value].role == Admin
    ensures HandleRegister(session, req, st).0.Reply?
    ensures HandleRegister(session, req, st).1.users[SessionEmail(session).value].role == Freelancer
  {
  }
}

=== FILE: signup.dfy ===
/** `POST /api/auth/signup`: creates a customer or freelancer account with a
    hashed password. */
module Signup {
  import opened JsValues
  import opened Domain
  import opened Http

  /** The JSON body. */
  datatype SignupRequest = SignupRequest(
    name: Option<string>,
    email: Option<string>,
    password: Option<string>,
    isFreelancer: bool,
    bio: Option<string>,
    skills: Option<string>,
    hourlyRate: Option<int>)

  const InvalidInput := "Invalid input - password should be at least 8 characters."
  const MissingFreelancerFields := "Missing required freelancer fields."
  const UserExists := "User already exists."

  /** An email containing '@' and a password of at least 8 characters. */
  predicate CredentialsWellFormed(req: SignupRequest) {
    && TruthyString(req.email) && '@' in req.email.value
    && TruthyString(req.password) && |req.password.value| >= 8
  }

  /** The freelancer fields, demanded only when signing up as a freelancer. */
  predicate FreelancerFieldsPresent(req: SignupRequest) {
    TruthyString(req.bio) && TruthyString(req.skills) && TruthyNumber(req.hourlyRate)
  }

  /** The account created for a request: a freelancer gets the submitted
      profile and is marked available; anyone else keeps the schema's
      `defaults`. The password is stored only as `hash` of it. */
  function NewAccount(req: SignupRequest, id: string, hash: string -> string, defaults: Profile): (u: User)
    requires CredentialsWellFormed(req)
    ensures u.id == id && u.email == req.email.value && u.name == req.name && u.image.None?
    ensures u.password == Some(hash(req.password.value))
    ensures u.role == Freelancer <==> req.isFreelancer
    ensures u.role != Admin
    ensures req.isFreelancer ==> u.profile == Profile(req.bio, req.skills, req.hourlyRate, true)
    ensures !req.isFreelancer ==> u.profile == defaults
  {
    User(id, req.name, req.email.value, None, Some(hash(req.password.value)),
      if req.isFreelancer then Freelancer else Customer,
      if req.isFreelancer then Profile(req.bio, req.skills, req.hourlyRate, true) else defaults)
  }

  /** The handler. `newId` is the id the database assigns, `hash` is bcrypt's
      hash and `defaults` the profile columns' schema defaults. */
  function HandleSignup(req: SignupRequest, st: Store, newId: string, hash: string -> string, defaults: Profile): (out: (Response<string>, Store))
    requires !UserIdTaken(st, newId)
    ensures out.0 == Error(422, InvalidInput) <==> !CredentialsWellFormed(req)
    ensures out.0 == Error(422, MissingFreelancerFields) <==>
      CredentialsWellFormed(req) && req.isFreelancer && !FreelancerFieldsPresent(req)
    ensures out.0 == Error(422, UserExists) <==>
      CredentialsWellFormed(req) && (req.isFreelancer ==> FreelancerFieldsPresent(req)) && req.email.value in st.users
    ensures out.0.Reply? <==>
      CredentialsWellFormed(req) && (req.isFreelancer ==> FreelancerFieldsPresent(req)) && req.email.value !in st.users
    ensures out.0.Error? ==> out.0.status == 422 && out.1 == st
    ensures out.0.Reply? ==>
      && out.0 == Reply(201, "User created successfully.")
      && req.email.value !in st.users
      && out.1 == st.(users := st.users[req.email.value := NewAccount(req, newId, hash, defaults)])
    ensures Valid(st) ==> Valid(out.1)
  {
    if !CredentialsWellFormed(req) then (Error(422, InvalidInput), st)
    else if req.isFreelancer && !FreelancerFieldsPresent(req) then (Error(422, MissingFreelancerFields), st)
    else if req.email.value in st.users then (Error(422, UserExists), st)
    else
      var u := NewAccount(req, newId, hash, defaults);
      (Reply(201, "User created successfully."), st.(users := st.users[req.email.value := u]))
  }
}

=== FILE: strings.dfy ===
/** The string operations the handlers and pages use: prefix tests, ASCII
    lower-casing, `String.prototype.replace` with a one-character pattern, and
    the decimal rendering of a millisecond timestamp. */
module Strings {

  predicate StartsWith(s: string, prefix: string) {
    |prefix| <= |s| && s[..|prefix|] == prefix
  }

  predicate EndsWith(s: string, suffix: string) {
    |suffix| <= |s| && s[|s| - |suffix|..] == suffix
  }

  predicate IsUpper(c: char) {
    'A' <= c <= 'Z'
  }

  function LowerChar(c: char): (r: char)
    ensures !IsUpper(r)
    ensures !IsUpper(c) ==> r == c
  {
    if IsUpper(c) then (c as int + 32) as char else c
  }

  /** `toLowerCase()`, restricted to ASCII letters. */
  function ToLower(s: string): (r: string)
    ensures |r| == |s|
    ensures forall i :: 0 <= i < |s| ==> r[i] == LowerChar(s[i])
  {
    if s == [] then [] else [LowerChar(s[0])] + ToLower(s[1..])
  }

  /** `indexOf(c)`: the first position of `c`, or -1. */
  function IndexOf(s: string, c: char): (r: int)
    ensures -1 <= r < |s|
    ensures r == -1 <==> c !in s
    ensures 0 <= r ==> s[r] == c && c !in s[..r]
  {
    if s == [] then -1
    else if s[0] == c then 0
    else
      var k := IndexOf(s[1..], c);
      if k < 0 then -1
      else
        assert s[..k + 1] == [s[0]] + s[1..][..k];
        k + 1
  }

  /** `replace(c, d)` with a one-character string pattern: only the FIRST
      occurrence of `c` is replaced. */
  function ReplaceFirst(s: string, c: char, d: char): (r: string)
    ensures |r| == |s|
    ensures c !in s ==> r == s
    ensures c in s ==> r == s[..IndexOf(s, c)] + [d] + s[IndexOf(s, c) + 1..]
  {
    var i := IndexOf(s, c);
    if i < 0 then s else s[..i] + [d] + s[i + 1..]
  }

  /** The number of occurrences of `c` in `s`. */
  function Count(s: string, c: char): nat {
    if s == [] then 0 else (if s[0] == c then 1 else 0) + Count(s[1..], c)
  }

  lemma {:induction false} CountZero(s: string, c: char)
    ensures Count(s, c) == 0 <==> c !in s
  {
    if s != [] {
      CountZero(s[1..], c);
      assert s == [s[0]] + s[1..];
    }
  }

  lemma {:induction false} CountAppend(a: string, b: string, c: char)
    ensures Count(a + b, c) == Count(a, c) + Count(b, c)
  {
    if a == [] {
      assert a + b == b;
    } else {
      assert (a + b)[1..] == a[1..] + b;
      CountAppend(a[1..], b, c);
    }
  }

  /** Replacing the first occurrence removes exactly one occurrence; so a string
      holding `c` at most once holds it no more afterwards. */
  lemma ReplaceFirstRemovesOne(s: string, c: char, d: char)
    requires c != d
    ensures c in s ==> Count(ReplaceFirst(s, c, d), c) == Count(s, c) - 1
    ensures Count(s, c) <= 1 ==> c !in ReplaceFirst(s, c, d)
  {
    var r := ReplaceFirst(s, c, d);
    if c in s {
      var i := IndexOf(s, c);
      assert s == s[..i] + [s[i]] + s[i + 1..];
      CountAppend(s[..i] + [s[i]], s[i + 1..], c);
      CountAppend(s[..i], [s[i]], c);
      CountAppend(s[..i] + [d], s[i + 1..], c);
      CountAppend(s[..i], [d], c);
      CountZero(s[..i], c);
      assert Count([d], c) == 0 by { assert [d][1..] == []; }
      assert Count([s[i]], c) == 1 by { assert [s[i]][1..] == []; }
      CountZero(r, c);
    }
  }

  /** The decimal digit character for `d`. */
  function DigitChar(d: nat): (r: char)
    requires d < 10
    ensures '0' <= r <= '9'
  {
    ('0' as int + d) as char
  }

  predicate AllDigits(s: string) {
    forall i :: 0 <= i < |s| ==> '0' <= s[i] <= '9'
  }

  /** The decimal rendering of a non-negative integer, as a template literal
      `${n}` produces it: most significant digit first, no leading zero. */
  function NatToDecimal(n: nat): (r: string)
    ensures |r| >= 1 && AllDigits(r)
    ensures |r| > 1 ==> r[0] != '0'
  {
    if n < 10 then [DigitChar(n)] else NatToDecimal(n / 10) + [DigitChar(n % 10)]
  }

  /** The value of a string of decimal digits. */
  function DecimalValue(s: string): nat
    requires AllDigits(s)
  {
    if s == [] then 0 else DecimalValue(s[..|s| - 1]) * 10 + (s[|s| - 1] as int - '0' as int)
  }

  /** Reading back a rendered timestamp gives the timestamp. */
  lemma {:induction false} DecimalRoundTrip(n: nat)
    ensures DecimalValue(NatToDecimal(n)) == n
  {
    if n >= 10 {
      var s := NatToDecimal(n);
      assert s[..|s| - 1] == NatToDecimal(n / 10);
      DecimalRoundTrip(n / 10);
    }
  }

  /** Distinct timestamps render to distinct strings. */
  lemma DecimalInjective(a: nat, b: nat)
    requires NatToDecimal(a) == NatToDecimal(b)
    ensures a == b
  {
    DecimalRoundTrip(a);
    DecimalRoundTrip(b);
  }
}

=== FILE: upload.dfy ===
/** `POST /api/upload`: asks for a signed upload URL for one file of an order
    and records the file's metadata before any byte is transferred. */
module Upload {
  import opened JsValues
  import opened Strings
  import opened Domain
  import opened Http
  import opened Auth

  /** The JSON body. `kind` is the body's `type` field: "source", "delivery" or
      any other string. */
  datatype UploadRequest = UploadRequest(
    filename: Option<string>,
    contentType: Option<string>,
    orderId: Option<string>,
    kind: Option<string>)

  /** The success body: where to PUT the bytes, and the id of the new record. */
  datatype UploadReply = UploadReply(uploadUrl: string, fileId: string)

  predicate Complete(req: UploadRequest) {
    TruthyString(req.filename) && TruthyString(req.contentType) && TruthyString(req.orderId) && TruthyString(req.kind)
  }

  /** Only the order's owner or its assigned freelancer may add files to it;
      until a freelancer is assigned, that is the owner alone. */
  predicate HasPermission(order: Order, userId: string)
    ensures order.freelancerId.None? ==> (HasPermission(order, userId) <==> userId == order.userId)
    ensures HasPermission(order, userId) && userId != order.userId ==> order.freelancerId.Some?
  {
    order.userId == userId || order.freelancerId == Some(userId)
  }

  /** The storage key `<orderId>/<type>/<Date.now()>-<filename>`. */
  function StorageKey(orderId: string, kind: string, now: nat, filename: string): (key: string)
    ensures StartsWith(key, orderId + "/" + kind + "/")
    ensures EndsWith(key, "-" + filename)
  {
    var key := orderId + "/" + kind + "/" + NatToDecimal(now) + "-" + filename;
    assert key == (orderId + "/" + kind + "/") + (NatToDecimal(now) + "-" + filename);
    assert key == (orderId + "/" + kind + "/" + NatToDecimal(now)) + ("-" + filename);
    key
  }

  /** Two uploads of the same file name to the same order and role at
      different milliseconds get different keys. */
  lemma StorageKeyDistinguishesTime(orderId: string, kind: string, filename: string, t1: nat, t2: nat)
    requires t1 != t2
    ensures StorageKey(orderId, kind, t1, filename) != StorageKey(orderId, kind, t2, filename)
  {
    var p := orderId + "/" + kind + "/";
    var k1 := StorageKey(orderId, kind, t1, filename);
    var k2 := StorageKey(orderId, kind, t2, filename);
    assert k1 == p + (NatToDecimal(t1) + "-" + filename);
    assert k2 == p + (NatToDecimal(t2) + "-" + filename);
    if k1 == k2 {
      assert k1[|p|..] == NatToDecimal(t1) + "-" + filename;
      assert k2[|p|..] == NatToDecimal(t2) + "-" + filename;
      var m1 := NatToDecimal(t1) + "-" + filename;
      var m2 := NatToDecimal(t2) + "-" + filename;
      assert m1 == m2;
      assert |NatToDecimal(t1)| == |NatToDecimal(t2)|;
      assert NatToDecimal(t1) == m1[..|NatToDecimal(t1)|] == m2[..|NatToDecimal(t2)|] == NatToDecimal(t2);
      DecimalInjective(t1, t2);
    }
  }

  /** The `fileUpload.create` payload: size 0 until the transfer is confirmed,
      the declared content type, the order link, and the artifact-role link
      chosen by the `type` field. */
  function NewFileRecord(id: string, filename: string, key: string, contentType: string, orderId: string, kind: string): (f: FileUpload)
    ensures f.id == id && f.filename == filename && f.key == key
    ensures f.size == 0 && f.mimeType == contentType && f.orderId == orderId
    ensures f.sourceOrder.Some? <==> kind == "source"
    ensures f.deliveryOrder.Some? <==> kind == "delivery"
    ensures f.sourceOrder.Some? ==> f.sourceOrder.value == orderId
    ensures f.deliveryOrder.Some? ==> f.deliveryOrder.value == orderId
  {
    FileUpload(id, filename, key, 0, contentType, orderId,
      if kind == "source" then Some(orderId) else None,
      if kind == "delivery" then Some(orderId) else None)
  }

  /** The handler. `now` is `Date.now()`, `newId` the id the database assigns to
      the new row, `sign` the storage adapter's upload-URL issuer. */
  function HandleUpload(session: Option<Session>, req: UploadRequest, st: Store, now: nat, newId: string, sign: (string, string) -> string): (out: (Response<UploadReply>, Store))
    requires newId !in st.files
    ensures out.0.status == 401 <==> SessionEmail(session).None?
    ensures out.0.status == 400 <==> SessionEmail(session).Some? && !Complete(req)
    ensures out.0 == Error(404, "Order not found") <==>
      SessionEmail(session).Some? && Complete(req) && req.orderId.value !in st.orders
    ensures out.0 == Error(404, "User not found") <==>
      SessionEmail(session).Some? && Complete(req) && req.orderId.value in st.orders
      && SessionEmail(session).value !in st.users
    ensures out.0.status == 403 <==>
      SessionEmail(session).Some? && Complete(req) && req.orderId.value in st.orders
      && SessionEmail(session).value in st.users
      && !HasPermission(st.orders[req.orderId.value], st.users[SessionEmail(session).value].id)
    ensures out.0.Reply? <==>
      SessionEmail(session).Some? && Complete(req) && req.orderId.value in st.orders
      && SessionEmail(session).value in st.users
      && HasPermission(st.orders[req.orderId.value], st.users[SessionEmail(session).value].id)
    ensures out.0.Error? ==> out.1 == st
    ensures out.0.Reply? ==>
      && out.0.status == 200
      && out.0.body.fileId == newId
      && out.1.users == st.users && out.1.orders == st.orders && out.1.reviews == st.reviews
      && out.1.files.Keys == st.files.Keys + {newId}
      && |out.1.files| == |st.files| + 1
      && (forall f :: f in st.files ==> out.1.files[f] == st.files[f])
      && var key := StorageKey(req.orderId.value, req.kind.value, now, req.filename.value);
         && out.1.files[newId] == NewFileRecord(newId, req.filename.value, key, req.contentType.value, req.orderId.value, req.kind.value)
         && out.0.body.uploadUrl == sign(key, req.contentType.value)
  {
    var email := SessionEmail(session);
    if email.None? then (Error(401, "Unauthorized"), st)
    else if !Complete(req) then (Error(400, "Missing required fields"), st)
    else
      var orderId := req.orderId.value;
      if orderId !in st.orders then (Error(404, "Order not found"), st)
      else if email.value !in st.users then (Error(404, "User not found"), st)
      else
        var user := st.users[email.value];
        if !HasPermission(st.orders[orderId], user.id) then (Error(403, "Unauthorized"), st)
        else
          var key := StorageKey(orderId, req.kind.value, now, req.filename.value);
          var url := sign(key, req.contentType.value);
          var record := NewFileRecord(newId, req.filename.value, key, req.contentType.value, orderId, req.kind.value);
          (Reply(200, UploadReply(url, newId)), st.(files := st.files[newId := record]))
  }

  /** An upload keeps the store's keys and links intact: the new record is
      filed under its own id and links only to the order it names. */
  lemma UploadKeepsStoreValid(session: Option<Session>, req: UploadRequest, st: Store, now: nat, newId: string, sign: (string, string) -> string)
    requires newId !in st.files && Valid(st)
    ensures Valid(HandleUpload(session, req, st, now, newId, sign).1)
  {
    var out := HandleUpload(session, req, st, now, newId, sign);
    if out.0.Reply? {
      AddFileKeepsValid(st, out.1.files[newId]);
    }
  }

  /** Filing a record that names existing orders under its own id keeps the
      store valid. */
  lemma AddFileKeepsValid(st: Store, f: FileUpload)
    requires Valid(st)
    requires f.orderId in st.orders && OrderRef(st, f.sourceOrder) && OrderRef(st, f.deliveryOrder)
    ensures Valid(st.(files := st.files[f.id := f]))
  {
  }
}

=== FILE: workflows.dfy ===
/** Properties that span several requests: an account can sign in right after
    signing up, a customer can turn freelancer once, and a client can attach
    files to the order they just created. */
module Workflows {
  import opened JsValues
  import opened Domain
  import opened Http
  import opened Auth
  import opened Signup
  import opened FreelancerRegister
  import opened Orders
  import opened Upload

  function SessionFor(email: string): Session {
    Session(Some(SessionUser(None, None, Some(email), None, None)), "")
  }

  /** A fresh account signs in with the password it was created with, provided
      the password check accepts a password against its own hash; the session
      then carries the account's role. */
  lemma SignupThenSignIn(req: SignupRequest, st: Store, newId: string, hash: string -> string, defaults: Profile,
                         compare: (string, string) -> bool, token: Token, session: Session)
    requires !UserIdTaken(st, newId)
    requires HandleSignup(req, st, newId, hash, defaults).0.Reply?
    requires hash(req.password.value) != ""
    requires compare(req.password.value, hash(req.password.value))
    ensures var st' := HandleSignup(req, st, newId, hash, defaults).1;
      var signedIn := Authorize(Some(Credentials(req.email, req.password)), st', compare);
      && signedIn == Success(NewAccount(req, newId, hash, defaults))
      && SessionCallback(session, Jwt(token, Some(signedIn.value))).user.value.role
         == Some(if req.isFreelancer then Freelancer else Customer)
  {
  }

  /** A customer who signed up can register as a freelancer, and the account
      then shows the submitted profile and is available for hire. */
  lemma CustomerBecomesFreelancer(sreq: SignupRequest, st: Store, newId: string, hash: string -> string, defaults: Profile, rreq: RegisterRequest)
    requires !UserIdTaken(st, newId)
    requires HandleSignup(sreq, st, newId, hash, defaults).0.Reply?
    requires !sreq.isFreelancer
    requires FreelancerRegister.Complete(rreq)
    ensures var st1 := HandleSignup(sreq, st, newId, hash, defaults).1;
      var out := HandleRegister(Some(SessionFor(sreq.email.value)), rreq, st1);
      && out.0.Reply?
      && out.1.users[sreq.email.value].role == Freelancer
      && out.1.users[sreq.email.value].profile == Profile(rreq.bio, rreq.skills, rreq.hourlyRate, true)
      && out.1.users[sreq.email.value].id == newId
  {
    var email := sreq.email.value;
    assert SessionEmail(Some(SessionFor(email))) == Some(email);
  }

  /** The client who created an order may upload to it at once: the upload
      succeeds and the new file belongs to that order. */
  lemma CreatorCanUpload(session: Option<Session>, oreq: OrderRequest, st: Store, now: int, orderId: string, initialStatus: OrderStatus, isDate: string -> bool,
                         filename: string, contentType: string, kind: string, at: nat, fileId: string, sign: (string, string) -> string)
    requires orderId !in st.orders
    requires HandleCreateOrder(session, oreq, st, now, orderId, initialStatus, isDate).0.Reply?
    requires filename != "" && contentType != "" && orderId != "" && kind != ""
    requires fileId !in st.files
    ensures var st1 := HandleCreateOrder(session, oreq, st, now, orderId, initialStatus, isDate).1;
      var up := HandleUpload(session, UploadRequest(Some(filename), Some(contentType), Some(orderId), Some(kind)), st1, at, fileId, sign);
      && up.0 == Reply(200, UploadReply(sign(StorageKey(orderId, kind, at, filename), contentType), fileId))
      && up.1.files[fileId].orderId == orderId
  {
    var st1 := HandleCreateOrder(session, oreq, st, now, orderId, initialStatus, isDate).1;
    assert st1.files.Keys == st.files.Keys;
  }

  /** The freelancer assigned to an order may upload to it too, even though
      they did not create it. */
  lemma AssigneeCanUpload(email: string, st: Store, orderId: string, filename: string, contentType: string, kind: string,
                          at: nat, fileId: string, sign: (string, string) -> string)
    requires email != "" && email in st.users && orderId in st.orders
    requires st.orders[orderId].freelancerId == Some(st.users[email].id)
    requires filename != "" && contentType != "" && orderId != "" && kind != ""
    requires fileId !in st.files
    ensures var up := HandleUpload(Some(SessionFor(email)), UploadRequest(Some(filename), Some(contentType), Some(orderId), Some(kind)), st, at, fileId, sign);
      && up.0 == Reply(200, UploadReply(sign(StorageKey(orderId, kind, at, filename), contentType), fileId))
      && up.1.files[fileId].orderId == orderId
  {
  }

  /** Someone who neither owns nor is assigned to an order is refused any upload
      to it, and nothing is recorded. */
  lemma StrangerCannotUpload(session: Option<Session>, req: UploadRequest, st: Store, now: nat, fileId: string, sign: (string, string) -> string)
    requires fileId !in st.files
    requires SessionEmail(session).Some? && Upload.Complete(req)
    requires req.orderId.value in st.orders && SessionEmail(session).value in st.users
    requires var caller := st.users[SessionEmail(session).value].id;
      var order := st.orders[req.orderId.value];
      order.userId != caller && order.freelancerId != Some(caller)
    ensures HandleUpload(session, req, st, now, fileId, sign) == (Error(403, "Unauthorized"), st)
  {
  }
}
